=== FILE: README.md ===
# Orbit camera and character mover, modelled in Dafny

This project models the control core of a Unity third-person game
(`Assets/Scripts/Control`). It has three parts:

- **`OrbitCamera`** (`camera.dfy`). The camera sits on a sphere around the
  character. It has a polar angle `phi`, an azimuth `theta` and an arm length.
  Each `LateUpdate` is gated by the mouse context: in `Menu` it does nothing.
  Otherwise it runs `Zoom` and then `Pan`. `Pan` clamps `phi` to
  `[0.0001, pi - 0.0001]`, turns `theta` and then runs `RenormalizeAngles`.
  `GetTheta` is the azimuth the mover reads.
- **`ZoomAnimation`** (`zoom.dfy`). One run of the `animateZoom` coroutine is a
  state `Run(armLength, distanceRemaining, frameNum, direction)`. `Step` is one
  pass of the loop body. It first calls `overExtendedCamera`, then moves the arm
  by the linear, root or quadratic easing. `Iterate` runs `k` passes while the
  loop guard `distanceRemaining > 0.01` holds.
- **`CharacterMover`** (`mover.dfy`). It covers key priority for forward/back
  ("w" before "s") and strafe ("d" before "a"). It builds the direction vectors
  from the camera azimuth. It also updates the vertical velocity: a grounded fall
  resets it to 0, a jump is added only on the ground, and gravity is added every
  frame.

`Optional` (`optional.dfy`) holds the `Option` type. `MathF` (`mathf.dfy`) holds the shared numeric vocabulary:
- `(float)Math.PI` as an exact real constant;
- `Mathf.Clamp`;
- C#'s truncating `int` division;
- `Math.Sin`, `Math.Cos`, and the square root behind `Math.Sqrt` and Unity's
  `Mathf.Sqrt` (`(float)Math.Sqrt`), as arbitrary functions (a `Libm`
  record).

Floats are modelled by `real`. Wherever a property needs square roots, it
assumes only that `sqrt(0) = 0` and `sqrt(1) = 1` exactly, and that `sqrt` is
non-negative on non-negative arguments.

Some facts the model makes precise:

- **Root and quadratic easing jump in one frame.** Both use C# integer division
  `frameNum / numberOfZoomingFrames`. The quotient is 0 before frame N and 1 on
  frame N. So these runs stay still for N−1 frames, then cover the whole
  distance at once (`EasedRunJumpsOnFrameN`).
- **Linear easing shrinks geometrically.** Each pass keeps `(N−1)/N` of what
  remains. A run ends when at most 0.01 is left, and the remainder never goes
  below 0. So for a scroll of ±1, a completed run that hit no bound falls
  short of its target by between 0 and 0.01 in the zoom direction
  (`AnimateZoom`). For a scroll s in general the shortfall is |s|·remaining.
- **A step can overshoot a zoom bound.** The bound check runs before the step,
  so the step itself is never clamped. A zoom-out from 9.9 with a 10 maximum
  can end at 12.9 (`LinearStepOvershootsMaxZoom`). The clamp only acts on the
  next pass, if the run still has one.
- **Only a scroll of ±1 is ever clamped.** The scroll axis is truncated to
  `int`, so it can be 2 or more in magnitude. `overExtendedCamera` compares the
  direction with −1 and 1 exactly, so a run with |scroll| ≥ 2 never hits a
  bound and moves |scroll| times as far. A scroll of −2 from an arm of 12 with a
  maximum of 10 ends at 18 (`DoubleScrollIsNeverClamped`).
- **`RenormalizeAngles` maps into `[2pi, 4pi)`, not `[0, 2pi)`.**
  - It subtracts a turn above 2pi and then adds one below 2pi. So it maps
    `[0, 6pi)` into `[2pi, 4pi)`, and it leaves 7.0 where it is
    (`SevenRadiansStay`).
  - A negative first turn from `theta = 0` lands below 2pi
    (`FirstLeftTurnLeavesUpperWindow`).
  - The window every reachable camera keeps is therefore `[0, 4pi)`, given
    per-frame turns under a full turn (`ReachableAngles`). A single pan of
    more than a full turn can leave it: a −10 pan from 0 does
    (`FullTurnPanGoesNegative`). The polar
    window holds with no such condition.
- **Scroll does not cancel a run already in flight.** `Zoom` starts a new
  coroutine without stopping the old one. The model describes one run and does
  not add a cancellation rule.
- **The first pass happens inside `LateUpdate`.** `StartCoroutine` executes a
  run's first pass before returning. So the arm can already move in the frame
  whose scroll started the run (`Zoom`, `LateUpdate`).

## Model

| member | source | states |
|---|---|---|
| MathF.Clamp | Assets/Scripts/Control/CameraController.cs:89-91 | The clamped polar angle lies in [min, max]. A value inside is unchanged. Below min gives min; above max gives max. |
| MathF.IntDiv | Assets/Scripts/Control/CameraController.cs:206-207 | C# integer division truncates toward zero. For 0 ≤ a and 0 < b the quotient q satisfies q·b ≤ a < q·b + b, and it is 0 when a < b. |
| ZoomAnimation.OverExtendedCamera | Assets/Scripts/Control/CameraController.cs:186-196 | The bound is hit iff (direction = −1 and arm ≤ minZoom) or (direction = 1 and arm ≥ maxZoom). The arm is then set exactly to that bound. Otherwise the result is false and the arm is unchanged. |
| ZoomAnimation.RootDistanceCalculation | Assets/Scripts/Control/CameraController.cs:205-208 | With sqrt exact on 0 and 1, the root step is 0 on frames 1..N−1 and the whole remaining distance on frame N. |
| ZoomAnimation.QuadraticDistanceCalculation | Assets/Scripts/Control/CameraController.cs:217-220 | The quadratic step is 0 on frames 1..N−1 and the whole remaining distance on frame N. |
| ZoomAnimation.Step | Assets/Scripts/Control/CameraController.cs:142-173 | A bound hit clamps the arm to the bound the run heads for (minZoom for direction −1, maxZoom for direction 1), sets the remaining distance to 0 and ends the run. Otherwise the arm changes by direction × (decrease of distanceRemaining). Linear easing keeps distanceRemaining·(1 − 1/N) and leaves frameNum alone; the other easings advance frameNum by one. |
| ZoomAnimation.StartRun | Assets/Scripts/Control/CameraController.cs:124-140 | Scroll 0 starts nothing. A non-zero scroll s starts a run with direction −s, distanceRemaining = zoomDistance, frameNum = 1 and the current arm. |
| ZoomAnimation.Zoom | Assets/Scripts/Control/CameraController.cs:123-128 | A run exists iff the scroll is non-zero, with direction −scroll. After its synchronous first pass, the arm is either clamped to the bound the run heads for, with 0 remaining, or equals start + direction × (zoomDistance − remaining). A run too short to enter the loop leaves the arm unchanged. |
| ZoomAnimation.Bookkeeping | Assets/Scripts/Control/CameraController.cs:150-170 | While no bound is hit, any number of passes keeps the direction. The arm moves by direction times the distance used. |
| ZoomAnimation.RunBookkeeping | Assets/Scripts/Control/CameraController.cs:139-170 | From the start of a run with no bound hit: armLength = start + direction·(zoomDistance − distanceRemaining). |
| ZoomAnimation.EasedRunIdles | Assets/Scripts/Control/CameraController.cs:153-171 | Before frame N, a root or quadratic run clear of its bound only advances frameNum. The arm and the remaining distance do not move. |
| ZoomAnimation.EasedRunJumpsOnFrameN | Assets/Scripts/Control/CameraController.cs:153-172 | A root or quadratic run that starts clear of its bound, with zoomDistance > 0.01, idles on passes 0..N−1. Pass N moves the arm by direction·zoomDistance, leaves 0 remaining and ends the loop. |
| ZoomAnimation.RunAtBoundEndsAtOnce | Assets/Scripts/Control/CameraController.cs:142-149 | A zoom-in at or below minZoom ends on its first pass with the arm exactly at minZoom. A zoom-out at or above maxZoom ends exactly at maxZoom. |
| ZoomAnimation.LinearSingleFrame | Assets/Scripts/Control/CameraController.cs:144-152 | With N = 1, a linear run clear of its bound covers its whole distance in one pass and ends. |
| ZoomAnimation.LinearStepOvershootsMaxZoom | Assets/Scripts/Control/CameraController.cs:144-151 | The step after a passed bound check is not clamped. A linear zoom-out from 9.9 (max 10, distance 3, N = 1) ends at 12.9 > maxZoom. |
| ZoomAnimation.DoubleScrollIsNeverClamped | Assets/Scripts/Control/CameraController.cs:186-196 | The bound check matches direction −1 and 1 only. A run started by scroll −2 from arm 12 (max 10, N = 1, distance 3) is not clamped and ends at 18. |
| ZoomAnimation.StepProgress | Assets/Scripts/Control/CameraController.cs:142-172 | A pass keeps root and quadratic runs within frames 1..N and strictly lowers the loop variant, for every easing. |
| ZoomAnimation.StepKeepsRemainderNonNegative | Assets/Scripts/Control/CameraController.cs:142-172 | No pass of a well-formed running run drives distanceRemaining below 0: the bound hit sets it to 0, linear keeps a (1 − 1/N) share, and root and quadratic take at most all of it. |
| ZoomAnimation.RunToCompletion | Assets/Scripts/Control/CameraController.cs:142-176 | Running the loop from any well-formed state ends within the variant's number of passes, with a remainder that stays non-negative if it started so. The final arm is accounted for: moved by direction times the distance used, or clamped to the bound the run heads for with 0 remaining. |
| ZoomAnimation.AnimateZoom | Assets/Scripts/Control/CameraController.cs:138-179 | Every run a scroll starts terminates, within N passes for root and quadratic easing. It ends at start + direction·(zoomDistance − remaining), or with 0 remaining at the bound it heads for (minZoom for scroll 1, maxZoom for scroll −1; larger scrolls are never clamped). For a non-negative zoomDistance the final remaining distance lies in [0, 0.01]. |
| OrbitCamera.RenormalizeAngles | Assets/Scripts/Control/CameraController.cs:108-115 | theta changes by exactly −2pi, 0 or +2pi. [0, 6pi) is mapped into [2pi, 4pi). Below 2pi a turn is added, in [2pi, 4pi) nothing changes, and from 4pi a turn is taken off. |
| OrbitCamera.Pan | Assets/Scripts/Control/CameraController.cs:83-103 | A vertical pan puts phi in [0.0001, pi − 0.0001]. No vertical pan leaves phi unchanged, and the window is preserved. theta ends within one turn of theta + delta and lands in [2pi, 4pi) when theta + delta is in [0, 6pi). The arm is untouched. |
| OrbitCamera.LateUpdate | Assets/Scripts/Control/CameraController.cs:70-77 | In the menu context the frame changes nothing and starts no run. Otherwise a run starts iff the scroll is non-zero, with direction −scroll. The camera's arm is the started run's arm, and a vertical pan leaves phi in its window. |
| OrbitCamera.GameplayContextsAgree | Assets/Scripts/Control/CameraController.cs:70-73 | defaultGamePlay and spellCasting frames give identical results. |
| OrbitCamera.FramePreservesAngles | Assets/Scripts/Control/CameraController.cs:83-115 | One frame, in any context, with a turn under a full turn, keeps phi in its window and theta in [0, 4pi). |
| OrbitCamera.FramesPreserveAngles | Assets/Scripts/Control/CameraController.cs:70-115 | The same invariant holds across any sequence of such frames. |
| OrbitCamera.PhiStaysInWindow | Assets/Scripts/Control/CameraController.cs:87-92 | From phi in [0.0001, pi − 0.0001], any sequence of frames, in any context and with any pans, keeps phi in that window. |
| OrbitCamera.ReachableAngles | Assets/Scripts/Control/CameraController.cs:37-38 | From phi = 0.3 and theta = 0, every reachable camera has phi in [0.0001, pi − 0.0001]. If no frame pans a full turn or more, theta stays in [0, 4pi). |
| OrbitCamera.GetTheta | Assets/Scripts/Control/CameraController.cs:237-239 | The azimuth handed to the mover lies in [0, 4pi) on any camera keeping the angle invariant. |
| OrbitCamera.MoverReadsReachableAzimuth | Assets/Scripts/Control/CameraController.cs:237-239 | From a new camera and frames with sub-turn pans, the azimuth the mover reads lies in [0, 4pi). |
| OrbitCamera.FullTurnPanGoesNegative | Assets/Scripts/Control/CameraController.cs:93-115 | A first pan of −10 from theta = 0 leaves theta negative, so the sub-turn condition on the [0, 4pi) window is needed. |
| OrbitCamera.FirstLeftTurnLeavesUpperWindow | Assets/Scripts/Control/CameraController.cs:93-115 | A first turn of −1 from theta = 0 gives theta = 2pi − 1. So [2pi, 4pi) is not invariant. |
| OrbitCamera.SevenRadiansStay | Assets/Scripts/Control/CameraController.cs:108-115 | An azimuth of 7 is left unchanged: a turn is subtracted and added back. |
| CharacterMover.ForwardBackwardMovementInput | Assets/Scripts/Control/CharacterMover.cs:90-98 | The result is 1 iff "w" is held, −1 iff "s" is held without "w", and 0 iff neither is held. |
| CharacterMover.ForwardMovement | Assets/Scripts/Control/CharacterMover.cs:76-83 | The y component is 0. With θ = `getTheta()` of the camera and "w", the result is the facing vector (−sin θ, 0, −cos θ); with only "s" its negation; with neither, zero. |
| CharacterMover.Strafe | Assets/Scripts/Control/CharacterMover.cs:105-120 | The y component is 0. With θ = `getTheta()` of the camera and "d", the result is the right vector (−cos θ, 0, sin θ); with only "a" its negation; with neither, zero. |
| CharacterMover.MirroredDirections | Assets/Scripts/Control/CharacterMover.cs:76-120 | For the same camera, the "a" strafe is the exact negation of the "d" strafe, and "s" movement the negation of "w" movement. |
| CharacterMover.MoveFollowsAzimuthOnly | Assets/Scripts/Control/CharacterMover.cs:76-120 | Two cameras with the same `getTheta()` give the same move for every key combination; phi and the arm do not steer. |
| CharacterMover.PriorityKeysWin | Assets/Scripts/Control/CharacterMover.cs:90-120 | "w" overrides "s" and "d" overrides "a": releasing the losing key changes nothing. |
| CharacterMover.HorizontalMove | Assets/Scripts/Control/CharacterMover.cs:51 | forwardMovement() + strafe() has y = 0 for every key set and camera. |
| CharacterMover.HorizontalMoveForwardOnly | Assets/Scripts/Control/CharacterMover.cs:51 | With "a" and "d" released, forwardMovement() + strafe() equals forwardMovement() alone. |
| CharacterMover.HorizontalMoveStrafeOnly | Assets/Scripts/Control/CharacterMover.cs:51 | With "w" and "s" released, forwardMovement() + strafe() equals strafe() alone. |
| CharacterMover.JumpImpulse | Assets/Scripts/Control/CharacterMover.cs:62-65 | With gravityValue ≤ 0, jumpHeight ≥ 0 and a non-negative sqrt, the jump impulse is non-negative. |
| CharacterMover.VerticalVelocity | Assets/Scripts/Control/CharacterMover.cs:45-67 | In the air: v + g·dt. On the ground: max(v, 0), plus the impulse if jump is pressed, plus g·dt. A grounded update never falls below g·dt when the impulse is non-negative. |
| CharacterMover.GravityEveryFrame | Assets/Scripts/Control/CharacterMover.cs:67 | gravity·dt is added on every frame, whatever the keys and the ground contact. |
| CharacterMover.NoJumpInTheAir | Assets/Scripts/Control/CharacterMover.cs:62-65 | Pressing jump while not grounded changes nothing. |

## Left out

- Camera geometry is not modelled: the Cartesian position from the spherical
  angles (CameraController.cs:98-101), `LookAt` (76) and the initial arm length
  from the Euclidean norm (225-231). These are float computations through
  foreign math calls.
- Coroutine scheduling is not modelled. This covers overlapping runs started by
  repeated scrolls, `StopCoroutine(coroutine)` stopping whichever run the field
  last pointed to, and in-flight runs that keep stepping during menu frames.
  The model describes a single run; `LateUpdate` does not claim the menu freezes
  the arm.
- Unity input and engine calls become plain parameters: the `Input.GetAxis` and
  `Input.GetKey` polling, the `(int)` truncation of the scroll axis,
  `Time.deltaTime`, and the `CharacterController` ground contact.
- The mover's normalization by the vector's magnitude (CharacterMover.cs:52) is
  left out. So are the `move != Vector3.zero` test and the `controller.Move`
  calls. The magnitude is 0 when no key is held, which gives NaN in floats.
- Float rounding is not modelled. The constants `0.3f`, `0.01f` and `0.0001f`
  are taken as the exact decimals, while their single-precision values differ
  slightly. Likewise `(float)Math.PI - 0.0001f` and the pan sums
  `phi + ypan * panSpeed * Time.deltaTime` round in floats but not in the model.
- `MouseContext.cs` is modelled only by its three-valued enum, because its
  setter only forwards to `CursorVisibility`, which is not part of this model.
  `FollowEmpty.cs` copies a transform each frame and is not modelled.
- Occlusion snapping (`snapToArmLength`, CameraController.cs:42, 130) is not
  implemented in the code.
- ZoomAnimation.Valid: every zoom member, and `LateUpdate`, require
  `numberOfZoomingFrames >= 1`. The code accepts any value. With 0, root and
  quadratic easing throw `DivideByZeroException` (CameraController.cs:206, 218)
  and linear easing sends the arm to an infinity (150). With a negative count, a
  linear run never ends: each pass grows `distanceRemaining` by the factor
  1 + 1/|N| (151). These faults are not modelled, and the termination proof
  depends on excluding them.
- ZoomAnimation.AnimateZoom: for root easing, termination is proved assuming
  `Math.Sqrt` returns exactly 0 and 1 on 0 and 1. Nothing else about the square
  root is assumed. Termination holds over the reals only. In single precision,
  `distanceRemaining - distanceRemaining / numberOfZoomingFrames`
  (CameraController.cs:151) rounds back to `distanceRemaining` once the frame
  count reaches about 2^25, so such a linear run never ends in the code.
- CharacterMover.JumpImpulse: only the sign of the impulse is stated. Unity's
  `Mathf.Sqrt` (`(float)Math.Sqrt`) is left uninterpreted.

=== FILE: camera.dfy ===
/**
 The orbit camera: its spherical angles around the character, the per-frame
 pan update with the polar clamp and the azimuth renormalization, and the
 `LateUpdate` frame that the mouse context gates.

 The arm length is driven by zoom runs (module ZoomAnimation); a run started
 in a frame takes its first pass inside that frame.
 */
module OrbitCamera {
  import opened MathF
  import opened Optional
  import ZoomAnimation

  /** `MouseContext.mouseContext`: only `Menu` concerns the camera. */
  datatype MouseContext = DefaultGamePlay | Menu | SpellCasting

  /** The camera's spherical coordinates around the character. */
  datatype Camera = Camera(phi: real, theta: real, armLength: real)

  /** The polar angle a camera starts with. */
  const InitialPhi: real := 0.3

  /** The polar angle is kept this far from both poles. */
  const PhiMin: real := 0.0001
  const PhiMax: real := Pi - 0.0001

  /** A new camera: `phi` at its field initializer, `theta` at the C# default 0. */
  function Initial(armLength: real): Camera {
    Camera(InitialPhi, 0.0, armLength)
  }

  /**
   `getTheta`: the azimuth the character mover reads each time it builds a
   direction; on a camera that keeps the angle invariant it lies in [0, 4*pi).
   */
  function GetTheta(cam: Camera): (r: real)
    ensures AnglesInvariant(cam) ==> 0.0 <= r < 2.0 * TwoPi
  {
    cam.theta
  }

  /**
   One frame's mouse movement: the raw `Mouse X`/`Mouse Y` axis values and the
   factor `panSpeed * Time.deltaTime` they are scaled by.
   */
  datatype PanInput = PanInput(xpan: real, ypan: real, scale: real)

  /** How far `theta` is turned by this frame's input before renormalization. */
  function HorizontalDelta(p: PanInput): real {
    if p.xpan != 0.0 then p.xpan * p.scale else 0.0
  }

  /** The polar window, phi in [PhiMin, PhiMax]. */
  predicate PhiInWindow(phi: real) {
    PhiMin <= phi <= PhiMax
  }

  /**
   `RenormalizeAngles`, as written: one full turn is subtracted above 2*pi and
   one is added below 2*pi, so the result lands in [2*pi, 4*pi) rather than [0, 2*pi).
   */
  function RenormalizeAngles(theta: real): (r: real)
    ensures r == theta - TwoPi || r == theta || r == theta + TwoPi
    ensures 0.0 <= theta < 3.0 * TwoPi ==> TwoPi <= r < 2.0 * TwoPi
    ensures theta < TwoPi ==> r == theta + TwoPi
    ensures TwoPi <= theta < 2.0 * TwoPi ==> r == theta
    ensures 2.0 * TwoPi <= theta ==> r == theta - TwoPi
  {
    var t := if theta > TwoPi then theta - TwoPi else theta;
    if t < TwoPi then t + TwoPi else t
  }

  /** `Pan`: clamp the polar angle, accumulate the azimuth, renormalize it. */
  function Pan(cam: Camera, p: PanInput): (r: Camera)
    ensures r.armLength == cam.armLength
    ensures p.ypan != 0.0 ==> PhiInWindow(r.phi)
    ensures p.ypan == 0.0 ==> r.phi == cam.phi
    ensures PhiInWindow(cam.phi) ==> PhiInWindow(r.phi)
    ensures var turned := cam.theta + HorizontalDelta(p);
            r.theta == turned - TwoPi || r.theta == turned || r.theta == turned + TwoPi
    ensures 0.0 <= cam.theta + HorizontalDelta(p) < 3.0 * TwoPi ==> TwoPi <= r.theta < 2.0 * TwoPi
    ensures cam.theta + HorizontalDelta(p) < 0.0 ==> r.theta == cam.theta + HorizontalDelta(p) + TwoPi
  {
    var phi := if p.ypan != 0.0 then Clamp(cam.phi + p.ypan * p.scale, PhiMin, PhiMax) else cam.phi;
    var theta := cam.theta + HorizontalDelta(p);
    Camera(phi, RenormalizeAngles(theta), cam.armLength)
  }

  /** One frame's input: the pan axes and the scroll value, already truncated to `int`. */
  datatype FrameInput = FrameInput(pan: PanInput, scroll: int)

  /** What a frame leaves behind: the camera, and the zoom run it started, if any. */
  datatype FrameResult = FrameResult(camera: Camera, started: Option<ZoomAnimation.Run>)

  /**
   `LateUpdate`: in the menu context nothing happens; otherwise `Zoom` (which
   may start a run and take its first pass) and then `Pan`. Runs started in
   earlier frames are stepped by the coroutine scheduler, not here.
   */
  function LateUpdate(cfg: ZoomAnimation.Config, cam: Camera, context: MouseContext, input: FrameInput): (r: FrameResult)
    requires ZoomAnimation.Valid(cfg)
    ensures context == Menu ==> r == FrameResult(cam, None)
    ensures context != Menu ==> (r.started.Some? <==> input.scroll != 0)
    ensures r.started.Some? ==> r.started.value.direction == -input.scroll
    ensures r.started.Some? ==> r.camera.armLength == r.started.value.armLength
    ensures r.started.None? ==> r.camera.armLength == cam.armLength
    ensures context != Menu && input.pan.ypan != 0.0 ==> PhiInWindow(r.camera.phi)
    ensures input.pan.ypan == 0.0 ==> r.camera.phi == cam.phi
  {
    if context == Menu then
      FrameResult(cam, None)
    else
      var started := ZoomAnimation.Zoom(cfg, cam.armLength, input.scroll);
      var armLength := if started.Some? then started.value.armLength else cam.armLength;
      FrameResult(Pan(cam.(armLength := armLength), input.pan), started)
  }

  /** The default and spell-casting contexts drive the camera identically. */
  lemma GameplayContextsAgree(cfg: ZoomAnimation.Config, cam: Camera, input: FrameInput)
    requires ZoomAnimation.Valid(cfg)
    ensures LateUpdate(cfg, cam, DefaultGamePlay, input) == LateUpdate(cfg, cam, SpellCasting, input)
  {
  }

  /** A frame as the camera sees it: the mouse context and the input. */
  datatype Frame = Frame(context: MouseContext, input: FrameInput)

  /**
   The camera after a sequence of frames. Its angles are those of the source;
   its arm only includes the synchronous first pass of each run started, since
   later passes of runs in flight are stepped by the coroutine scheduler.
   */
  function Frames(cfg: ZoomAnimation.Config, cam: Camera, frames: seq<Frame>): Camera
    requires ZoomAnimation.Valid(cfg)
    decreases |frames|
  {
    if |frames| == 0 then cam
    else Frames(cfg, LateUpdate(cfg, cam, frames[0].context, frames[0].input).camera, frames[1..])
  }

  /** Every frame turns the azimuth by less than a full turn either way. */
  predicate TurnsBelowFullTurn(frames: seq<Frame>) {
    forall i :: 0 <= i < |frames| ==> -TwoPi < HorizontalDelta(frames[i].input.pan) < TwoPi
  }

  /** The angles every reachable camera keeps: phi in its window, theta in [0, 4*pi). */
  predicate AnglesInvariant(cam: Camera) {
    PhiInWindow(cam.phi) && 0.0 <= cam.theta < 2.0 * TwoPi
  }

  /** One frame keeps the angle invariant. */
  lemma FramePreservesAngles(cfg: ZoomAnimation.Config, cam: Camera, f: Frame)
    requires ZoomAnimation.Valid(cfg) && AnglesInvariant(cam)
    requires -TwoPi < HorizontalDelta(f.input.pan) < TwoPi
    ensures AnglesInvariant(LateUpdate(cfg, cam, f.context, f.input).camera)
  {
  }

  /** The angle invariant holds after any sequence of frames with sub-turn pans. */
  lemma {:induction false} FramesPreserveAngles(cfg: ZoomAnimation.Config, cam: Camera, frames: seq<Frame>)
    requires ZoomAnimation.Valid(cfg) && AnglesInvariant(cam) && TurnsBelowFullTurn(frames)
    ensures AnglesInvariant(Frames(cfg, cam, frames))
    decreases |frames|
  {
    if |frames| != 0 {
      FramePreservesAngles(cfg, cam, frames[0]);
      var next := LateUpdate(cfg, cam, frames[0].context, frames[0].input).camera;
      assert TurnsBelowFullTurn(frames[1..]) by {
        forall i | 0 <= i < |frames| - 1
          ensures -TwoPi < HorizontalDelta(frames[1..][i].input.pan) < TwoPi
        {
          assert frames[1..][i] == frames[i + 1];
        }
      }
      FramesPreserveAngles(cfg, next, frames[1..]);
    }
  }

  /** The polar clamp does not depend on the azimuth: phi stays in its window over any frames. */
  lemma {:induction false} PhiStaysInWindow(cfg: ZoomAnimation.Config, cam: Camera, frames: seq<Frame>)
    requires ZoomAnimation.Valid(cfg) && PhiInWindow(cam.phi)
    ensures PhiInWindow(Frames(cfg, cam, frames).phi)
    decreases |frames|
  {
    if |frames| != 0 {
      var next := LateUpdate(cfg, cam, frames[0].context, frames[0].input).camera;
      PhiStaysInWindow(cfg, next, frames[1..]);
    }
  }

  /**
   From a new camera, whatever the contexts, phi stays in [0.0001, pi - 0.0001];
   as long as no frame pans a full turn, theta stays in [0, 4*pi).
   */
  lemma ReachableAngles(cfg: ZoomAnimation.Config, armLength: real, frames: seq<Frame>)
    requires ZoomAnimation.Valid(cfg)
    ensures PhiInWindow(Frames(cfg, Initial(armLength), frames).phi)
    ensures TurnsBelowFullTurn(frames) ==> AnglesInvariant(Frames(cfg, Initial(armLength), frames))
  {
    PhiStaysInWindow(cfg, Initial(armLength), frames);
    if TurnsBelowFullTurn(frames) {
      FramesPreserveAngles(cfg, Initial(armLength), frames);
    }
  }

  /** The azimuth the mover reads from a reachable camera lies in [0, 4*pi), given sub-turn pans. */
  lemma MoverReadsReachableAzimuth(cfg: ZoomAnimation.Config, armLength: real, frames: seq<Frame>)
    requires ZoomAnimation.Valid(cfg) && TurnsBelowFullTurn(frames)
    ensures 0.0 <= GetTheta(Frames(cfg, Initial(armLength), frames)) < 2.0 * TwoPi
  {
    ReachableAngles(cfg, armLength, frames);
  }

  /** A single pan of more than a full turn can leave [0, 4*pi): a -10 pan from 0 does. */
  lemma FullTurnPanGoesNegative()
    ensures Pan(Initial(1.0), PanInput(-10.0, 0.0, 1.0)).theta < 0.0
  {
  }

  /**
   The window [2*pi, 4*pi) is not invariant: turning left on the first frame
   leaves theta below 2*pi.
   */
  lemma FirstLeftTurnLeavesUpperWindow()
    ensures Pan(Initial(1.0), PanInput(-1.0, 0.0, 1.0)).theta == TwoPi - 1.0
  {
  }

  /** An azimuth of 7 (just above 2*pi) is left where it is: a turn is taken off and put back. */
  lemma SevenRadiansStay()
    ensures RenormalizeAngles(7.0) == 7.0
  {
  }
}

=== FILE: mathf.dfy ===
/**
 The numeric vocabulary the camera and the mover share: C#'s float constants and
 integer division, Unity's Mathf.Clamp, and the platform's trigonometric and
 square-root functions, which are left uninterpreted.

 Floats are modelled by `real`; rounding is not modelled.
 */
module MathF {

  /** `(float)Math.PI`, exactly: the single-precision value nearest to pi. */
  const Pi: real := 3.1415927410125732421875

  /** `2 * (float)Math.PI`, the full turn RenormalizeAngles compares against. */
  const TwoPi: real := 2.0 * Pi

  /**
   The platform's `Math.Sin` and `Math.Cos`, and the square root behind both
   `Math.Sqrt` and Unity's `Mathf.Sqrt` (which is `(float)Math.Sqrt`), as arbitrary functions.
   */
  datatype Libm = Libm(sin: real -> real, cos: real -> real, sqrt: real -> real)

  /** IEEE square root is exact on 0 and 1; nothing else about it is assumed here. */
  predicate SqrtExactOnUnits(m: Libm) {
    m.sqrt(0.0) == 0.0 && m.sqrt(1.0) == 1.0
  }

  /** The square root of a non-negative number is non-negative. */
  ghost predicate SqrtNonNegative(m: Libm) {
    forall x: real :: 0.0 <= x ==> 0.0 <= m.sqrt(x)
  }

  /** Unity's `Mathf.Clamp(value, min, max)`: the lower bound is tested first. */
  function Clamp(value: real, min: real, max: real): (r: real)
    ensures min <= max ==> min <= r <= max
    ensures min <= value <= max ==> r == value
    ensures value < min ==> r == min
    ensures min <= value && max < value ==> r == max
  {
    if value < min then min
    else if value > max then max
    else value
  }

  /** C#'s `/` on `int`: the quotient is truncated toward zero. */
  function IntDiv(a: int, b: int): (q: int)
    requires b != 0
    ensures 0 <= a && 0 < b ==> q * b <= a < q * b + b
    ensures a < 0 && 0 < b ==> q * b - b < a <= q * b
    ensures 0 <= a < b ==> q == 0
  {
    var n := if a < 0 then -a else a;
    var d := if b < 0 then -b else b;
    var magnitude := n / d;
    assert n == magnitude * d + n % d && 0 <= n % d < d;
    if (a < 0) != (b < 0) then -magnitude else magnitude
  }

  /** `Math.Pow(x, 2)`. */
  function Square(x: real): real {
    x * x
  }
}

=== FILE: mover.dfy ===
/**
 The character mover: which keys turn into which horizontal direction, given
 the azimuth read from the camera with `getTheta`, and the per-frame update of the vertical velocity.
 */
module CharacterMover {
  import opened MathF
  import OrbitCamera

  datatype Vector3 = Vector3(x: real, y: real, z: real)

  const Zero: Vector3 := Vector3(0.0, 0.0, 0.0)

  function Neg(v: Vector3): Vector3 {
    Vector3(-v.x, -v.y, -v.z)
  }

  function Plus(a: Vector3, b: Vector3): Vector3 {
    Vector3(a.x + b.x, a.y + b.y, a.z + b.z)
  }

  /** A vector times an `int`, as `Vector3 * int` converts the factor to float. */
  function Times(v: Vector3, k: int): Vector3 {
    Vector3(v.x * k as real, v.y * k as real, v.z * k as real)
  }

  /** The movement keys held this frame. */
  datatype Keys = Keys(w: bool, s: bool, a: bool, d: bool)

  /** `forwardBackwardMovementInput`: "w" is checked first, then "s". */
  function ForwardBackwardMovementInput(keys: Keys): (r: int)
    ensures r == 1 <==> keys.w
    ensures r == -1 <==> !keys.w && keys.s
    ensures r == 0 <==> !keys.w && !keys.s
  {
    if keys.w then 1
    else if keys.s then -1
    else 0
  }

  /** The direction the camera looks along, flattened onto the ground plane. */
  function Facing(m: Libm, theta: real): Vector3 {
    Vector3(m.sin(theta) * -1.0, 0.0, m.cos(theta) * -1.0)
  }

  /** `forwardMovement`: the facing direction at the camera's azimuth, scaled by the forward/backward input. */
  function ForwardMovement(m: Libm, cam: OrbitCamera.Camera, keys: Keys): (r: Vector3)
    ensures r.y == 0.0
    ensures keys.w ==> r == Facing(m, OrbitCamera.GetTheta(cam))
    ensures !keys.w && keys.s ==> r == Neg(Facing(m, OrbitCamera.GetTheta(cam)))
    ensures !keys.w && !keys.s ==> r == Zero
  {
    Times(Facing(m, OrbitCamera.GetTheta(cam)), ForwardBackwardMovementInput(keys))
  }

  /** The strafe direction for "d". */
  function StrafeRight(m: Libm, theta: real): Vector3 {
    Vector3(m.cos(theta) * -1.0, 0.0, m.sin(theta))
  }

  /** The strafe direction for "a". */
  function StrafeLeft(m: Libm, theta: real): Vector3 {
    Vector3(m.cos(theta), 0.0, m.sin(theta) * -1.0)
  }

  /** `strafe`: "d" is checked first, then "a"; no key gives the zero vector. */
  function Strafe(m: Libm, cam: OrbitCamera.Camera, keys: Keys): (r: Vector3)
    ensures r.y == 0.0
    ensures keys.d ==> r == StrafeRight(m, OrbitCamera.GetTheta(cam))
    ensures !keys.d && keys.a ==> r == Neg(StrafeRight(m, OrbitCamera.GetTheta(cam)))
    ensures !keys.d && !keys.a ==> r == Zero
  {
    if keys.d then StrafeRight(m, OrbitCamera.GetTheta(cam))
    else if keys.a then StrafeLeft(m, OrbitCamera.GetTheta(cam))
    else Zero
  }

  /** Left is the mirror of right, and backward the mirror of forward, for the same azimuth. */
  lemma MirroredDirections(m: Libm, cam: OrbitCamera.Camera)
    ensures Strafe(m, cam, Keys(false, false, true, false)) == Neg(Strafe(m, cam, Keys(false, false, false, true)))
    ensures ForwardMovement(m, cam, Keys(false, true, false, false))
         == Neg(ForwardMovement(m, cam, Keys(true, false, false, false)))
  {
  }

  /** Holding "w" with "s", or "d" with "a", is the same as holding "w", or "d", alone. */
  lemma PriorityKeysWin(m: Libm, cam: OrbitCamera.Camera, keys: Keys)
    ensures keys.w ==> ForwardMovement(m, cam, keys) == ForwardMovement(m, cam, keys.(s := false))
    ensures keys.d ==> Strafe(m, cam, keys) == Strafe(m, cam, keys.(a := false))
  {
  }

  /**
   The horizontal move `forwardMovement() + strafe()` before normalization:
   it never has a vertical component.
   */
  function HorizontalMove(m: Libm, cam: OrbitCamera.Camera, keys: Keys): (r: Vector3)
    ensures r.y == 0.0
  {
    Plus(ForwardMovement(m, cam, keys), Strafe(m, cam, keys))
  }

  /** `Zero` is the unit of `Plus` on both sides. */
  lemma PlusZero(v: Vector3)
    ensures Plus(v, Zero) == v && Plus(Zero, v) == v
  {
  }

  /** With "a" and "d" released, the move is the forward/backward part alone. */
  lemma HorizontalMoveForwardOnly(m: Libm, cam: OrbitCamera.Camera, keys: Keys)
    ensures !keys.a && !keys.d ==> HorizontalMove(m, cam, keys) == ForwardMovement(m, cam, keys)
  {
    PlusZero(ForwardMovement(m, cam, keys));
  }

  /** With "w" and "s" released, the move is the strafe part alone. */
  lemma HorizontalMoveStrafeOnly(m: Libm, cam: OrbitCamera.Camera, keys: Keys)
    ensures !keys.w && !keys.s ==> HorizontalMove(m, cam, keys) == Strafe(m, cam, keys)
  {
    PlusZero(Strafe(m, cam, keys));
  }

  /** The mover reads nothing of the camera but its azimuth: phi and the arm do not steer. */
  lemma MoveFollowsAzimuthOnly(m: Libm, c1: OrbitCamera.Camera, c2: OrbitCamera.Camera, keys: Keys)
    requires OrbitCamera.GetTheta(c1) == OrbitCamera.GetTheta(c2)
    ensures HorizontalMove(m, c1, keys) == HorizontalMove(m, c2, keys)
  {
  }

  /** The mover's physics settings. */
  datatype Physics = Physics(jumpHeight: real, gravityValue: real)

  /** Unity's `Mathf.Sqrt(jumpHeight * -3 * gravityValue)`, i.e. `(float)Math.Sqrt`: the velocity a jump adds. */
  function JumpImpulse(m: Libm, ph: Physics): (r: real)
    ensures SqrtNonNegative(m) && ph.gravityValue <= 0.0 && ph.jumpHeight >= 0.0 ==> r >= 0.0
  {
    var x := ph.jumpHeight * -3.0 * ph.gravityValue;
    assert ph.gravityValue <= 0.0 && ph.jumpHeight >= 0.0 ==> x >= 0.0;
    m.sqrt(x)
  }

  /**
   The vertical part of `Update`: a grounded fall is reset to 0, a jump is
   added only on the ground, and gravity times dt is added every frame.
   */
  function VerticalVelocity(m: Libm, ph: Physics, velocityY: real, grounded: bool, jump: bool, dt: real): (r: real)
    ensures !grounded ==> r == velocityY + ph.gravityValue * dt
    ensures grounded && !jump ==> r == (if velocityY < 0.0 then 0.0 else velocityY) + ph.gravityValue * dt
    ensures grounded && jump ==>
              r == (if velocityY < 0.0 then 0.0 else velocityY) + JumpImpulse(m, ph) + ph.gravityValue * dt
    ensures SqrtNonNegative(m) && ph.gravityValue <= 0.0 && ph.jumpHeight >= 0.0 && grounded ==>
              r >= ph.gravityValue * dt
  {
    var reset := if grounded && velocityY < 0.0 then 0.0 else velocityY;
    var jumped := if jump && grounded then reset + JumpImpulse(m, ph) else reset;
    jumped + ph.gravityValue * dt
  }

  /** Gravity is applied the same way whatever the keys and the ground contact. */
  lemma GravityEveryFrame(m: Libm, ph: Physics, velocityY: real, grounded: bool, jump: bool, dt: real)
    ensures VerticalVelocity(m, ph, velocityY, grounded, jump, dt)
         == VerticalVelocity(m, ph, velocityY, grounded, jump, 0.0) + ph.gravityValue * dt
  {
  }

  /** Pressing jump in the air changes nothing. */
  lemma NoJumpInTheAir(m: Libm, ph: Physics, velocityY: real, dt: real)
    ensures VerticalVelocity(m, ph, velocityY, false, true, dt) == VerticalVelocity(m, ph, velocityY, false, false, dt)
  {
  }
}

=== FILE: optional.dfy ===
/** A value that may be absent, such as the zoom run a frame did not start. */
module Optional {

  datatype Option<+T> = None | Some(value: T)
}

=== FILE: zoom.dfy ===
/**
 The zoom animation of the third-person camera: one run of the `animateZoom`
 coroutine, written as a pure step function over an explicit run state.

 A run is created by a scroll notch and then advanced once per frame. Every
 step first asks `overExtendedCamera` whether the arm is already at or past
 the bound it is moving towards; for a scroll of +1 or -1 the arm is then
 clamped and the run ends. The check compares the direction with -1 and 1
 exactly, so a run started by a scroll of magnitude 2 or more is never
 clamped. Otherwise the arm moves by this frame's easing distance. The loop goes on
 while more than `ZoomStopThreshold` of the distance remains.
 */
module ZoomAnimation {
  import opened MathF
  import opened Optional

  /** The loop of `animateZoom` stops once no more than this remains. */
  const ZoomStopThreshold: real := 0.01

  datatype AnimationType = Linear | Root | Quadratic

  /** The camera's zoom settings, as serialized on the component. */
  datatype Config = Config(
    zoomDistance: real,
    numberOfZoomingFrames: int,
    minZoom: real,
    maxZoom: real,
    animationType: AnimationType,
    math: Libm)

  /** The frame count divides the step; a zero count is a configuration fault. */
  predicate Valid(cfg: Config) {
    cfg.numberOfZoomingFrames >= 1
  }

  /** The root easing needs `Math.Sqrt` exact on the only two quotients a run reaches. */
  predicate EasingExact(cfg: Config) {
    cfg.animationType == Root ==> SqrtExactOnUnits(cfg.math)
  }

  /** The state of one run: the camera arm it drives and the coroutine's locals. */
  datatype Run = Run(armLength: real, distanceRemaining: real, frameNum: int, direction: int)

  /** The loop guard of `animateZoom`. */
  predicate Running(s: Run) {
    s.distanceRemaining > ZoomStopThreshold
  }

  /** The outcome of `overExtendedCamera`: whether a bound was hit, and the arm afterwards. */
  datatype BoundCheck = BoundCheck(overExtended: bool, armLength: real)

  /**
   The bound a run in `direction` is clamped to: minZoom for direction -1 and
   maxZoom for direction 1. For any other direction no clamp happens, and the
   value is not used.
   */
  function BoundFor(cfg: Config, direction: int): real {
    if direction == -1 then cfg.minZoom else cfg.maxZoom
  }

  /** Clamps the arm to the bound it is moving towards when it has reached it. */
  function OverExtendedCamera(cfg: Config, armLength: real, direction: int): (r: BoundCheck)
    ensures r.overExtended <==>
              (direction == -1 && armLength <= cfg.minZoom) || (direction == 1 && armLength >= cfg.maxZoom)
    ensures direction == -1 && armLength <= cfg.minZoom ==> r.armLength == cfg.minZoom
    ensures direction == 1 && armLength >= cfg.maxZoom ==> r.armLength == cfg.maxZoom
    ensures !r.overExtended ==> r.armLength == armLength
    ensures r.overExtended ==> r.armLength == BoundFor(cfg, direction)
  {
    if armLength <= cfg.minZoom && direction == -1 then BoundCheck(true, cfg.minZoom)
    else if armLength >= cfg.maxZoom && direction == 1 then BoundCheck(true, cfg.maxZoom)
    else BoundCheck(false, armLength)
  }

  /**
   The root easing's distance for one frame. Both quotients are C# integer
   divisions, so they are 0 before frame N and 1 on frame N.
   */
  function RootDistanceCalculation(cfg: Config, frameNum: int, distanceRemaining: real): (r: real)
    requires Valid(cfg)
    ensures SqrtExactOnUnits(cfg.math) && 1 <= frameNum < cfg.numberOfZoomingFrames ==> r == 0.0
    ensures SqrtExactOnUnits(cfg.math) && frameNum == cfg.numberOfZoomingFrames ==> r == distanceRemaining
  {
    var n := cfg.numberOfZoomingFrames;
    distanceRemaining * cfg.math.sqrt(IntDiv(frameNum, n) as real)
      - distanceRemaining * cfg.math.sqrt(IntDiv(frameNum - 1, n) as real)
  }

  /** The quadratic easing's distance for one frame, with the same integer quotients. */
  function QuadraticDistanceCalculation(cfg: Config, frameNum: int, distanceRemaining: real): (r: real)
    requires Valid(cfg)
    ensures 1 <= frameNum < cfg.numberOfZoomingFrames ==> r == 0.0
    ensures frameNum == cfg.numberOfZoomingFrames ==> r == distanceRemaining
  {
    var n := cfg.numberOfZoomingFrames;
    distanceRemaining * Square(IntDiv(frameNum, n) as real)
      - distanceRemaining * Square(IntDiv(frameNum - 1, n) as real)
  }

  /** The distance the configured easing moves the arm in this frame. */
  function EasingDistance(cfg: Config, s: Run): real
    requires Valid(cfg)
  {
    match cfg.animationType
    case Linear => s.distanceRemaining / cfg.numberOfZoomingFrames as real
    case Root => RootDistanceCalculation(cfg, s.frameNum, s.distanceRemaining)
    case Quadratic => QuadraticDistanceCalculation(cfg, s.frameNum, s.distanceRemaining)
  }

  /** The arm after moving `distance` in `direction`, as `armLength + direction * distance`. */
  function Displaced(armLength: real, direction: int, distance: real): real {
    armLength + direction as real * distance
  }

  /** The arm of `t` has moved from that of `s` by `direction` times the distance used in between. */
  predicate MovedBy(s: Run, t: Run) {
    t.direction == s.direction &&
    t.armLength == Displaced(s.armLength, s.direction, s.distanceRemaining - t.distanceRemaining)
  }

  /** Two consecutive moves in the same direction add up to one. */
  lemma MovedByTrans(s: Run, t: Run, u: Run)
    requires MovedBy(s, t) && MovedBy(t, u)
    ensures MovedBy(s, u)
  {
  }

  /** One pass of the `animateZoom` loop body: bound check, then one easing step. */
  function Step(cfg: Config, s: Run): (r: Run)
    requires Valid(cfg)
    ensures r.direction == s.direction
    // a bound hit clamps the arm exactly and ends the run
    ensures OverExtendedCamera(cfg, s.armLength, s.direction).overExtended ==>
              !Running(r) && r.distanceRemaining == 0.0 && r.frameNum == s.frameNum &&
              r.armLength == BoundFor(cfg, s.direction)
    // otherwise the arm moves by exactly the distance taken off the remainder
    ensures !OverExtendedCamera(cfg, s.armLength, s.direction).overExtended ==> MovedBy(s, r)
    // the linear easing keeps (N-1)/N of what remains and never advances the frame
    ensures !OverExtendedCamera(cfg, s.armLength, s.direction).overExtended && cfg.animationType == Linear ==>
              r.distanceRemaining == s.distanceRemaining * (1.0 - 1.0 / cfg.numberOfZoomingFrames as real) &&
              r.frameNum == s.frameNum
    ensures !OverExtendedCamera(cfg, s.armLength, s.direction).overExtended && cfg.animationType != Linear ==>
              r.frameNum == s.frameNum + 1
  {
    var check := OverExtendedCamera(cfg, s.armLength, s.direction);
    if check.overExtended then
      Run(check.armLength, 0.0, s.frameNum, s.direction)
    else
      var d := EasingDistance(cfg, s);
      var frameNum := if cfg.animationType == Linear then s.frameNum else s.frameNum + 1;
      Run(Displaced(s.armLength, s.direction, d), s.distanceRemaining - d, frameNum, s.direction)
  }

  /** The state after at most `k` further passes of the loop; a finished run stays put. */
  function Iterate(cfg: Config, s: Run, k: nat): Run
    requires Valid(cfg)
    decreases k
  {
    if k == 0 || !Running(s) then s else Iterate(cfg, Step(cfg, s), k - 1)
  }

  /** None of the next `k` loop passes hits a zoom bound. */
  predicate ClearOfBounds(cfg: Config, s: Run, k: nat)
    requires Valid(cfg)
    decreases k
  {
    k == 0 || !Running(s) ||
    (!OverExtendedCamera(cfg, s.armLength, s.direction).overExtended && ClearOfBounds(cfg, Step(cfg, s), k - 1))
  }

  /** The prologue of `animateZoom` as started by `Zoom`: a scroll of `scroll` zooms in direction `-scroll`. */
  function StartRun(cfg: Config, armLength: real, scroll: int): (r: Option<Run>)
    ensures scroll == 0 <==> r.None?
    ensures r.Some? ==> r.value.direction == -scroll && r.value.armLength == armLength
    ensures r.Some? ==> r.value.distanceRemaining == cfg.zoomDistance && r.value.frameNum == 1
  {
    if scroll == 0 then None else Some(Run(armLength, cfg.zoomDistance, 1, -scroll))
  }

  /**
   `Zoom`: a scroll notch starts a run, and `StartCoroutine` executes its first
   loop pass before returning, so the arm may already move in this frame.
   */
  function Zoom(cfg: Config, armLength: real, scroll: int): (r: Option<Run>)
    requires Valid(cfg)
    ensures scroll == 0 <==> r.None?
    ensures r.Some? ==> r.value.direction == -scroll
    ensures r.Some? && cfg.zoomDistance <= ZoomStopThreshold ==>
              r.value.armLength == armLength && r.value.frameNum == 1
    ensures r.Some? ==>
              r.value.armLength == Displaced(armLength, -scroll, cfg.zoomDistance - r.value.distanceRemaining) ||
              (r.value.armLength == BoundFor(cfg, -scroll) && r.value.distanceRemaining == 0.0)
  {
    match StartRun(cfg, armLength, scroll)
    case None => None
    case Some(s) => Some(Iterate(cfg, s, 1))
  }

  // ---------------------------------------------------------------------------
  // Iterating the step
  // ---------------------------------------------------------------------------

  /** Iterating one more pass is stepping the state reached so far, if it still runs. */
  lemma {:induction false} IterateNext(cfg: Config, s: Run, k: nat)
    requires Valid(cfg)
    ensures Iterate(cfg, s, k + 1) ==
            (if Running(Iterate(cfg, s, k)) then Step(cfg, Iterate(cfg, s, k)) else Iterate(cfg, s, k))
    decreases k
  {
    if k != 0 && Running(s) {
      IterateNext(cfg, Step(cfg, s), k - 1);
    }
  }

  /**
   Bookkeeping: as long as no bound is hit, the arm has moved by `direction`
   times the distance the run has used up.
   */
  lemma {:induction false} Bookkeeping(cfg: Config, s: Run, k: nat)
    requires Valid(cfg)
    requires ClearOfBounds(cfg, s, k)
    ensures MovedBy(s, Iterate(cfg, s, k))
    decreases k
  {
    if k != 0 && Running(s) {
      var t := Step(cfg, s);
      Bookkeeping(cfg, t, k - 1);
      MovedByTrans(s, t, Iterate(cfg, t, k - 1));
    }
  }

  /** From the start of a run: `armLength = start + direction * (zoomDistance - distanceRemaining)`. */
  lemma RunBookkeeping(cfg: Config, armLength: real, scroll: int, k: nat)
    requires Valid(cfg)
    requires scroll != 0
    requires ClearOfBounds(cfg, StartRun(cfg, armLength, scroll).value, k)
    ensures var t := Iterate(cfg, StartRun(cfg, armLength, scroll).value, k);
            t.armLength == Displaced(armLength, -scroll, cfg.zoomDistance - t.distanceRemaining)
  {
    Bookkeeping(cfg, StartRun(cfg, armLength, scroll).value, k);
  }


  // ---------------------------------------------------------------------------
  // Root and quadratic runs: idle, then jump
  // ---------------------------------------------------------------------------

  /** Before frame N a root or quadratic run only counts frames. */
  lemma {:induction false} EasedRunIdles(cfg: Config, s: Run, j: nat)
    requires Valid(cfg) && EasingExact(cfg) && cfg.animationType != Linear
    requires Running(s) && 1 <= s.frameNum && s.frameNum + j <= cfg.numberOfZoomingFrames
    requires !OverExtendedCamera(cfg, s.armLength, s.direction).overExtended
    ensures Iterate(cfg, s, j) == s.(frameNum := s.frameNum + j)
    decreases j
  {
    if j != 0 {
      var t := Step(cfg, s);
      assert EasingDistance(cfg, s) == 0.0;
      assert t == s.(frameNum := s.frameNum + 1);
      EasedRunIdles(cfg, t, j - 1);
    }
  }

  /**
   A root or quadratic run that starts clear of its bound stays put for
   frames 1..N-1, then covers the whole distance on frame N and ends.
   */
  lemma EasedRunJumpsOnFrameN(cfg: Config, armLength: real, scroll: int)
    requires Valid(cfg) && EasingExact(cfg) && cfg.animationType != Linear
    requires scroll != 0 && cfg.zoomDistance > ZoomStopThreshold
    requires !OverExtendedCamera(cfg, armLength, -scroll).overExtended
    ensures var s := StartRun(cfg, armLength, scroll).value;
            forall k: nat :: k < cfg.numberOfZoomingFrames ==>
              Iterate(cfg, s, k) == Run(armLength, cfg.zoomDistance, k + 1, -scroll)
    ensures var t := Iterate(cfg, StartRun(cfg, armLength, scroll).value, cfg.numberOfZoomingFrames);
            t == Run(Displaced(armLength, -scroll, cfg.zoomDistance), 0.0, cfg.numberOfZoomingFrames + 1, -scroll) &&
            !Running(t)
  {
    var s := StartRun(cfg, armLength, scroll).value;
    var n := cfg.numberOfZoomingFrames;
    forall k: nat | k < n
      ensures Iterate(cfg, s, k) == Run(armLength, cfg.zoomDistance, k + 1, -scroll)
    {
      EasedRunIdles(cfg, s, k);
    }
    EasedRunIdles(cfg, s, n - 1);
    IterateNext(cfg, s, n - 1);
    var last := Iterate(cfg, s, n - 1);
    assert last == Run(armLength, cfg.zoomDistance, n, -scroll);
    assert EasingDistance(cfg, last) == cfg.zoomDistance;
  }

  /** A run whose arm already sits on the bound it heads for ends on its first pass, exactly on that bound. */
  lemma RunAtBoundEndsAtOnce(cfg: Config, armLength: real, scroll: int)
    requires Valid(cfg)
    requires cfg.zoomDistance > ZoomStopThreshold
    requires (scroll == 1 && armLength <= cfg.minZoom) || (scroll == -1 && armLength >= cfg.maxZoom)
    ensures var t := Iterate(cfg, StartRun(cfg, armLength, scroll).value, 1);
            !Running(t) && t.armLength == (if scroll == 1 then cfg.minZoom else cfg.maxZoom)
  {
  }

  // ---------------------------------------------------------------------------
  // Linear runs
  // ---------------------------------------------------------------------------

  /** With a single zooming frame a linear run covers its whole distance in one pass. */
  lemma LinearSingleFrame(cfg: Config, armLength: real, scroll: int)
    requires Valid(cfg) && cfg.animationType == Linear && cfg.numberOfZoomingFrames == 1
    requires scroll != 0 && cfg.zoomDistance > ZoomStopThreshold
    requires !OverExtendedCamera(cfg, armLength, -scroll).overExtended
    ensures var t := Iterate(cfg, StartRun(cfg, armLength, scroll).value, 1);
            t == Run(Displaced(armLength, -scroll, cfg.zoomDistance), 0.0, 1, -scroll) && !Running(t)
  {
  }

  /**
   The bound check precedes the step, so the step itself is never clamped:
   a zoom-out from 9.9 towards a maximum of 10 ends at 12.9.
   */
  lemma LinearStepOvershootsMaxZoom()
    ensures var cfg := Config(3.0, 1, 0.01, 10.0, Linear, Libm(x => x, x => x, x => x));
            var t := Iterate(cfg, StartRun(cfg, 9.9, -1).value, 1);
            !Running(t) && t.armLength == 12.9 && t.armLength > cfg.maxZoom
  {
  }

  /**
   A scroll of -2 gives direction 2, which `overExtendedCamera` never matches:
   a zoom-out from 12, already past a maximum of 10, ends unclamped at 18.
   */
  lemma DoubleScrollIsNeverClamped()
    ensures var cfg := Config(3.0, 1, 0.01, 10.0, Linear, Libm(x => x, x => x, x => x));
            var t := Iterate(cfg, StartRun(cfg, 12.0, -2).value, 1);
            !OverExtendedCamera(cfg, 12.0, 2).overExtended && !Running(t) && t.armLength == 18.0
  {
  }

  // ---------------------------------------------------------------------------
  // Termination
  // ---------------------------------------------------------------------------

  /** The states a run passes through: root and quadratic runs never run past frame N. */
  predicate WellFormed(cfg: Config, s: Run)
    requires Valid(cfg)
  {
    cfg.animationType != Linear ==> 1 <= s.frameNum && (Running(s) ==> s.frameNum <= cfg.numberOfZoomingFrames)
  }

  /**
   A variant of the loop: for a linear run, remaining distance in units of
   threshold/N (each pass removes at least one unit); otherwise the frames left.
   */
  function Measure(cfg: Config, s: Run): nat
    requires Valid(cfg)
  {
    if !Running(s) then 0
    else match cfg.animationType
      case Linear =>
        var x := s.distanceRemaining * cfg.numberOfZoomingFrames as real / ZoomStopThreshold;
        assert x >= 1.0;
        x.Floor
      case _ =>
        if s.frameNum <= cfg.numberOfZoomingFrames then cfg.numberOfZoomingFrames - s.frameNum + 1 else 0
  }

  /** Every pass of a well-formed run keeps it well formed and lowers the variant. */
  lemma StepProgress(cfg: Config, s: Run)
    requires Valid(cfg) && EasingExact(cfg) && WellFormed(cfg, s) && Running(s)
    ensures WellFormed(cfg, Step(cfg, s))
    ensures Measure(cfg, Step(cfg, s)) < Measure(cfg, s)
  {
  }

  /** A pass never drives the remaining distance below 0. */
  lemma StepKeepsRemainderNonNegative(cfg: Config, s: Run)
    requires Valid(cfg) && EasingExact(cfg) && WellFormed(cfg, s) && Running(s)
    ensures 0.0 <= Step(cfg, s).distanceRemaining
  {
    if cfg.animationType == Linear {
      assert 0.0 <= 1.0 - 1.0 / cfg.numberOfZoomingFrames as real;
    }
  }

  /**
   The arm of `t` is accounted for from the run's state `s`: moved by
   `direction` times the distance used, or clamped to a bound by the last pass.
   */
  predicate Accounted(cfg: Config, s: Run, t: Run) {
    MovedBy(s, t) ||
    (t.direction == s.direction && t.distanceRemaining == 0.0 && t.armLength == BoundFor(cfg, s.direction))
  }

  /** A further pass keeps the arm accounted for. */
  lemma AccountedStep(cfg: Config, s: Run, t: Run)
    requires Valid(cfg) && Running(t) && t.direction == s.direction && Accounted(cfg, s, t)
    ensures Accounted(cfg, s, Step(cfg, t))
  {
  }

  /**
   Runs a zoom animation until its loop exits. Every well-formed run ends,
   within Measure passes, with the arm either clamped to a bound or moved by
   `direction` times the distance used.
   */
  method RunToCompletion(cfg: Config, s: Run) returns (t: Run, steps: nat)
    requires Valid(cfg) && EasingExact(cfg) && WellFormed(cfg, s)
    ensures !Running(t)
    ensures t == Iterate(cfg, s, steps)
    ensures steps <= Measure(cfg, s)
    ensures t.direction == s.direction
    ensures MovedBy(s, t) || (t.armLength == BoundFor(cfg, s.direction) && t.distanceRemaining == 0.0)
    ensures 0.0 <= s.distanceRemaining ==> 0.0 <= t.distanceRemaining
  {
    t, steps := s, 0;
    while Running(t)
      invariant WellFormed(cfg, t)
      invariant t == Iterate(cfg, s, steps)
      invariant steps + Measure(cfg, t) <= Measure(cfg, s)
      invariant Accounted(cfg, s, t)
      invariant 0.0 <= s.distanceRemaining ==> 0.0 <= t.distanceRemaining
      decreases Measure(cfg, t)
    {
      StepProgress(cfg, t);
      StepKeepsRemainderNonNegative(cfg, t);
      IterateNext(cfg, s, steps);
      AccountedStep(cfg, s, t);
      t, steps := Step(cfg, t), steps + 1;
    }
  }

  /** Every run a scroll starts terminates, at frame N at the latest for root and quadratic easing. */
  method AnimateZoom(cfg: Config, armLength: real, scroll: int) returns (t: Run, steps: nat)
    requires Valid(cfg) && EasingExact(cfg)
    requires scroll != 0
    ensures !Running(t)
    ensures t == Iterate(cfg, StartRun(cfg, armLength, scroll).value, steps)
    ensures cfg.animationType != Linear ==> steps <= cfg.numberOfZoomingFrames
    ensures t.armLength == Displaced(armLength, -scroll, cfg.zoomDistance - t.distanceRemaining) ||
            (t.armLength == BoundFor(cfg, -scroll) && t.distanceRemaining == 0.0)
    // a completed run falls short of its target by at most ZoomStopThreshold
    ensures 0.0 <= cfg.zoomDistance ==> 0.0 <= t.distanceRemaining <= ZoomStopThreshold
  {
    var s := StartRun(cfg, armLength, scroll).value;
    assert WellFormed(cfg, s);
    if cfg.animationType != Linear {
      assert Measure(cfg, s) <= cfg.numberOfZoomingFrames;
    }
    t, steps := RunToCompletion(cfg, s);
  }
}
